=== FILE: README.md ===
# Robotics academy data-access core, modelled in Dafny

The academy web application keeps its accounts, coaches, schools, community
posts, teams and competition registrations in a document store. Its
data-access layer (`src/lib/firestore.ts`) performs the account and role
transitions and the community state changes. This project models those
transitions as pure functions over one immutable store value:

- `Store.State` holds one finite map per collection: users, coaches, schools,
  posts, teams, registrations keyed by (competition id, team id), and
  competitions.
- Each mutator is a function `State -> Result<State>`. A write batch or
  transaction commits all of its writes or none of them, so an `Err` carries
  no store at all.
- `approveRegistration` issues two separate updates, so it returns a
  `Partial` instead: the store as far as it got, plus the error that stopped
  it.
- The signed-in user, the clock, the moderation classifier's verdict and
  the ids the store generates for new documents are all explicit parameters.

Modules, one per concern:

- `Outcomes`: option, error classes, `Result`, `Partial`.
- `Store`: the documents and the store.
- `DocOrder`: the document-id order query snapshots follow.
- `JsText`: JavaScript `trim()`.
- `ArrayUnion`: the store's `arrayUnion` field transform.
- `SchoolDirectory`: school lookups, the coach grouping, school edits.
- `Roles`: promotions, demotions, account deletion.
- `Community`: posts, likes, comments, approval.
- `CompetitionRegistry`: competitions and registrations.
- `TeamRoster`: team membership.
- `History`: all steps as one type, runs of steps, and the properties that
  span many steps.

Behaviour of the store client that the code relies on, and that the model
reproduces:

- An `update` of a missing document fails its whole batch or transaction.
  So demoting a coach whose user document is missing fails. So does making
  someone School Admin of a missing school, approving a post whose named
  author has no user document, and commenting without a user document.
- Deleting a missing document succeeds.
- A document reference with an empty id is rejected.
- `limit(1)` without an ordering returns the lowest document id.
- `increment` treats a missing counter as 0.

Behaviour of the code a reader might not expect, modelled as written:

- The role transitions (promotions, demotions, account deletion) check no
  caller role; the admin screen that offers them is what guards them. The
  `Roles` functions therefore take no signed-in user.
- Demoting a School Admin clears only the school named by the user's own
  `schoolId`. Another school whose `adminId` still names the user keeps it
  (`Roles.StaleBindingSurvivesDemotion`).
- `approvePost` credits the author on every call, including for a post that
  is already approved.
- `approveRegistration` counts the team again when the registration is
  already approved (`CompetitionRegistry.ApproveTwiceCountsTwice`).
- The promoted coach's school is updated inside the same batch as the role
  change, so it commits or fails together with it. A failed school lookup
  simply finds no school.

The role and coach-document link holds right after each coach transition.
It is not a global invariant: `History.CoachLinkKept` shows every other kind
of step keeps it. `History.SchoolAdminStepsBreakCoachLink` shows the two
School Admin transitions do not.

## Model

| member | source | states |
|---|---|---|
| `SchoolDirectory.GetSchoolByName` | src/lib/firestore.ts:153-169 | The empty name and 'Not Set' find nothing. Otherwise the result is a school with exactly that name and the lowest id among such schools. Nothing is found only when no school has that name. |
| `SchoolDirectory.CoachesOf` | src/lib/firestore.ts:114-123 | The coaches grouped under a school name are exactly the coach documents whose school field is that non-empty name, each once, in increasing id order. |
| `SchoolDirectory.GetSchools` | src/lib/firestore.ts:104-136 | Every school is listed, with the coaches grouped under its name. This is the corrected grouping (see Findings). |
| `SchoolDirectory.GetSchoolsAsWritten` | src/lib/firestore.ts:114-130 | The grouping into a plain object: when some coach's school is an `Object.prototype` key, the whole listing is empty; otherwise every school is listed. |
| `SchoolDirectory.AsWrittenAgreesOffPrototypeKeys` | src/lib/firestore.ts:114-130 | When no coach school and no school name is an inherited key, the object-literal grouping equals the corrected listing. |
| `SchoolDirectory.InheritedKeyEmptiesListing` | src/lib/firestore.ts:114-136 | One coach whose school is "toString" makes the listing empty while schools exist. |
| `SchoolDirectory.InheritedNameListing` | src/lib/firestore.ts:124-130 | When no coach's school is an inherited key, a school whose name is one gets the inherited member in place of its empty coach list. With `AsWrittenAgreesOffPrototypeKeys` this fixes every value of the listing. |
| `SchoolDirectory.InheritedKeySchoolListing` | src/lib/firestore.ts:124-130 | A school named "constructor", in a store where no coach names a school, gets the inherited member in place of its empty coach list. |
| `SchoolDirectory.UpdateSchool` | src/lib/firestore.ts:956-975 | The edit succeeds exactly for a signed-in Admin, or a School Admin whose own `schoolId` is this school, and only if the school exists. Otherwise it is refused as unauthorized. Name, location and a given about text change; nothing else does. |
| `Roles.SchoolToCoach` | src/lib/firestore.ts:831-838 | A promotion rewrites a school's coach field exactly when the user's school name is not empty, 'Unaffiliated' or 'Not Set' and names an existing school. It is then the lowest-id school with that name. |
| `Roles.PromoteUserToCoach` | src/lib/firestore.ts:802-846 | Fails, writing nothing, for an empty id or a missing user. On success the user becomes a Coach. A coach document holds the user's name, their school (or 'Unaffiliated'), their avatar (or the placeholder image), expertise "VEX, Arduino, Python", and the about text "An experienced coach from" followed by their school (or "the community"). Only the resolved school's coach field changes. Nothing else changes. |
| `Roles.DemoteCoach` | src/lib/firestore.ts:848-866 | Fails for an empty id or a missing user. Otherwise the user becomes a Student and has no coach document. No school and no other user changes. |
| `Roles.PromoteUserToSchoolAdmin` | src/lib/firestore.ts:868-897 | Fails for an empty id, a missing user or a missing school. Otherwise the user becomes a School Admin with that `schoolId` and school name. The school's `adminId` names the user whatever it held before. Coach documents are untouched. |
| `Roles.DemoteSchoolAdmin` | src/lib/firestore.ts:899-939 | Fails for an empty id or a missing user. Otherwise the user becomes a Student without `schoolId`. A school's `adminId` is removed only when it names this user and the school is the user's linked school. Every school whose `adminId` names someone else is unchanged. |
| `Roles.DeleteUser` | src/lib/firestore.ts:764-799 | Fails only for an empty id. Removes the user document and the coach document, plus exactly the posts the user wrote. All other documents, schools included, are unchanged. |
| `Roles.CoachTransitionsKeepProfileLink` | src/lib/firestore.ts:816-860 | After a successful promotion the user is a Coach and has a coach document. After a demotion the user is not a Coach and has none. |
| `Roles.DemoteCoachIdempotent` | src/lib/firestore.ts:853-860 | Demoting twice gives the same store as demoting once. |
| `Roles.DemoteCoachOfStudentIsNoOp` | src/lib/firestore.ts:853-860 | Demoting a Student who has no coach document succeeds and changes nothing. |
| `Roles.SchoolAdminPromotionKeepsCoachProfile` | src/lib/firestore.ts:879-891 | Promoting a coach to School Admin keeps their coach document. |
| `Roles.SecondPromotionDisplacesFirst` | src/lib/firestore.ts:868-939 | After two School Admin promotions to one school, the school names the second user. The first user still holds the school's id and may still edit the school. Demoting the first user leaves the second binding in place. |
| `Roles.StaleBindingSurvivesDemotion` | src/lib/firestore.ts:911-931 | A user promoted at two schools and then demoted remains the `adminId` of the first school. |
| `Roles.DeleteUserKeepsAdminBinding` | src/lib/firestore.ts:771-793 | Deleting a School Admin leaves the school's `adminId` naming the deleted user. |
| `Roles.PromoteThenDemoteCoach` | src/lib/firestore.ts:802-866 | Promote then demote leaves the user as before but with the Student role, and with no coach document. |
| `Community.CreatePost` | src/lib/firestore.ts:309-342 | A signed-in user with a display name posts content the classifier does not reject. The result is a new Pending post holding the given content, the user's id and display name, no likes and no comments. Harmful content is refused. |
| `History.DeleteAuthorAfterPost` | src/lib/firestore.ts:784-789 | Deleting a user right after they post gives the same store as deleting them before: the new post goes with its author. |
| `Community.TogglePostLike` | src/lib/firestore.ts:591-610 | Fails for a missing post. Otherwise the user's membership among the likers flips. The counter moves by +1 on a like and -1 on an unlike. Nothing else changes. |
| `Community.ToggleTwiceRestores` | src/lib/firestore.ts:596-605 | Two toggles by the same user restore the store. |
| `Community.ToggleKeepsLikeCount` | src/lib/firestore.ts:596-605 | If `likes` equals the number of likers before a toggle, it does after. |
| `Community.AddCommentToPost` | src/lib/firestore.ts:612-647 | Succeeds exactly for a signed-in user with a display name and a user document, non-blank text, and an existing post. The comment is appended unless an identical one is present. The commenter's contributions grow by exactly 1 and no one else's change. |
| `Community.WhiteSpaceCommentRejected` | src/lib/firestore.ts:621-623 | Text made only of white space is always refused. |
| `Community.ApprovePost` | src/lib/firestore.ts:723-748 | Fails for a missing post, or for an author without a user document. Otherwise the post becomes Approved and its author's contributions grow by exactly 1. |
| `JsText.BlankIffAllWhiteSpace` | src/lib/firestore.ts:621 | `trim()` leaves nothing exactly when every character is ECMAScript white space or a line terminator. |
| `ArrayUnion.Union` | src/lib/firestore.ts:520-523 | `arrayUnion` keeps the existing array as a prefix. Everything after it is a given element the array lacked. The result holds exactly the old and the given elements. A duplicate-free array stays duplicate-free. |
| `ArrayUnion.UnionAppendsInOrder` | src/lib/firestore.ts:520-523 | The appended elements are the given ones the array lacked, each once, in the order of their first occurrence among the given ones. |
| `ArrayUnion.UnionExample` | src/lib/firestore.ts:520-523 | Adding 2, 1, 2 to an empty array gives [2, 1]: the given order, not a sorted one, and the repeat added once. |
| `CompetitionRegistry.StatusFor` | src/lib/firestore.ts:657 | A competition is Upcoming exactly when its day number is today's or later. |
| `CompetitionRegistry.CreateCompetition` | src/lib/firestore.ts:653-664 | Adds one competition with the given name, date and description, the status of the date rule, and no teams counted. Nothing else changes. |
| `CompetitionRegistry.UpdateCompetition` | src/lib/firestore.ts:666-678 | Fails for an empty or missing id. Otherwise it rewrites name, date, description and the date-rule status, and keeps the team count. |
| `CompetitionRegistry.RegisterTeamForCompetition` | src/lib/firestore.ts:554-582 | An existing (competition, team) registration is refused. Otherwise exactly that key is added as Pending, with the given team and coach names, registered by the signed-in user. |
| `CompetitionRegistry.RegisterTwiceRejected` | src/lib/firestore.ts:564-569 | Registering the same team twice is refused the second time. |
| `CompetitionRegistry.RegisterThenDenyRestores` | src/lib/firestore.ts:709-720 | Denying a registration that was just filed restores the store. |
| `CompetitionRegistry.ApproveRegistration` | src/lib/firestore.ts:691-707 | A missing registration changes nothing. Otherwise the registration becomes Approved. The competition's team count grows by 1 if the competition exists; if it does not, the approval stays and an error is reported. |
| `CompetitionRegistry.ApproveTwiceCountsTwice` | src/lib/firestore.ts:696-701 | Approving the same registration twice counts the team twice. |
| `CompetitionRegistry.DenyRegistration` | src/lib/firestore.ts:709-720 | For non-empty ids, the registration is gone afterwards, whether or not it existed. Nothing else changes. |
| `TeamRoster.AddMembersToTeam` | src/lib/firestore.ts:510-528 | Needs a signed-in user, a non-empty id list and an existing team. Members become the old members followed by the given ids not already present, each once, in the order given. No other team changes. |
| `TeamRoster.AddMembersIdempotent` | src/lib/firestore.ts:520-523 | Adding the same students again changes nothing. |
| `History.StepCredit` | src/lib/firestore.ts:612-748 | Any single step moves a user's contributions by exactly its credit: 1 for a successful comment by that user, 1 for approving a post the user wrote, and 0 for anything else. |
| `History.ContributionsCountCredits` | src/lib/firestore.ts:612-748 | Over any run of steps, a user still present has gained exactly the run's credits. No contribution is ever lost, and no deleted user reappears. |
| `History.CoachLinkKept` | src/lib/firestore.ts:764-866 | Every step other than the School Admin transitions keeps this link: a user is a Coach exactly when they have a coach document. |
| `History.SchoolAdminStepsBreakCoachLink` | src/lib/firestore.ts:868-939 | Promoting or demoting a Coach through the School Admin transitions leaves a coach document whose user is not a Coach. |

## Findings

| source | as written | input that shows it | evidently intended | confidence | as-written member | corrected member |
|---|---|---|---|---|---|---|
| src/lib/firestore.ts:114-130 | Coaches are grouped into a plain object literal keyed by school name. A name like "toString" finds a truthy member inherited from `Object.prototype`, so `push` throws and the catch returns an empty school list. A school named "constructor" is listed with a function as its coaches. | A coach document whose school field is "toString"; or a school named "constructor" | Group by name with no inherited keys, for example a `Map` or an object without a prototype | not executed; high for the JavaScript semantics, low that such names occur in practice | `SchoolDirectory.GetSchoolsAsWritten` (with `SchoolDirectory.InheritedKeyEmptiesListing`) | `SchoolDirectory.GetSchools` (with `SchoolDirectory.AsWrittenAgreesOffPrototypeKeys`) |

## Left out

- Read-only query helpers are not modelled: `getCompetitions`, `getCompetitionById`, `getPendingRegistrations`, `getSchoolById`, `getCoaches`, `getCoachesBySchool`, `getCoachById`, `getPosts`, `getUsers`, `getUserById`, `getStudentsBySchool`, `getContributors`, the team queries and `isPostLikedByUser`. They only project and format documents. The name lookup and the coach grouping are modelled.
- Other writes in the same file are not modelled: `createTeam`, `deleteTeam`, `deletePost`, `deleteCompetition`, `createSchool`, `deleteSchool` and `updateCoachProfile`. They lie outside the role transitions, the contribution counter and the registration flow modelled here.
- `deletePost` deletes a single post document. It leaves the post's `likes` sub-collection behind and changes no `contributions` counter.
- The store can also fail on its own (network, quota). The model has no outcome for that. For a batch or transaction such a failure would leave the store as it was.
- Concurrency is not modelled: two operations racing, and the lost updates between a read and a later batch. Each operation is one sequential step.
- Server timestamps (`createdAt`, `registeredAt`), avatar and handle fields of posts and comments, images, the `coachName`, `schoolName` and `createdBy` fields written by team creation, and the `phone` and `createdAt` fields of a user document written at sign-up are not modelled. A comment's `createdAt` is the `now` parameter.
- A post's `likes` sub-collection is folded into the post as `likers`. Like documents left behind under a deleted post are therefore not represented.
- Document ids containing `/`, which the client would split into path segments, are not modelled. Ids are opaque strings.
- Time is local-time milliseconds. The time zone and daylight-saving shifts are folded into that number.
- `getSchools` orders schools by name. The model lists them as a map by school id without that order.
- Counters are unbounded integers. The store's 64-bit and JavaScript double limits are not reached by any realistic count.
- The role field holds Student, Coach or School Admin, which the code writes, or Admin, which is set outside the application and only read. Other values are not represented.
- The identity-provider account that `deleteUser` leaves behind is outside the store. Its parameter `userName` is unused in the code.
- `Community.CreatePost` and `CompetitionRegistry.CreateCompetition` take the store-generated id as a parameter, with a freshness precondition. This stands for `addDoc` choosing an unused id.
- Authentication (signed in or not) and the moderation verdict are parameters. A failure of the moderation call itself, which also refuses the post, is not separately represented; `harmful` only says whether the verdict rejects the content. The prompt-based classifier, the UI, the AI flows and the HTTP routes are not part of this model.

=== FILE: array_union.dfy ===
/** The store's `arrayUnion` field transform: each given element that is not
    already in the array is appended to its end, in the order given. */
module ArrayUnion {

  predicate NoDuplicates<T(==,!new)>(xs: seq<T>)
  {
    forall i, j :: 0 <= i < j < |xs| ==> xs[i] != xs[j]
  }

  /** The position of the first occurrence of `z` in `ys`. */
  function FirstIndex<T(==)>(ys: seq<T>, z: T): (k: nat)
    requires z in ys
    ensures k < |ys| && ys[k] == z
    ensures forall i :: 0 <= i < k ==> ys[i] != z
  {
    if ys[0] == z then 0 else 1 + FirstIndex(ys[1..], z)
  }

  /** `r` is `xs` followed by elements of `ys` that `xs` lacks, each once,
      in the order of their first occurrence in `ys`. */
  ghost predicate AppendsInOrder<T(!new)>(xs: seq<T>, ys: seq<T>, r: seq<T>)
  {
    && |xs| <= |r| && r[..|xs|] == xs
    && (forall i :: |xs| <= i < |r| ==> r[i] !in xs && r[i] in ys)
    && NoDuplicates(r[|xs|..])
    && (forall i, j :: |xs| <= i < j < |r| ==> FirstIndex(ys, r[i]) < FirstIndex(ys, r[j]))
  }

  /** The array after `arrayUnion(ys...)`: the old array, followed by the
      given elements it lacks (their order: `UnionAppendsInOrder`). */
  function Union<T(==,!new)>(xs: seq<T>, ys: seq<T>): (r: seq<T>)
    ensures |xs| <= |r| && r[..|xs|] == xs
    ensures forall z :: z in r <==> z in xs || z in ys
    ensures forall i :: |xs| <= i < |r| ==> r[i] !in xs && r[i] in ys
    ensures NoDuplicates(xs) ==> NoDuplicates(r)
    decreases |ys|
  {
    if ys == [] then xs
    else
      var y := ys[0];
      assert forall z :: z in ys <==> z == y || z in ys[1..];
      if y in xs then Union(xs, ys[1..]) else Union(xs + [y], ys[1..])
  }

  /** The elements `arrayUnion` appends are the given ones the array lacks,
      each once, in the order of their first occurrence among the given ones. */
  lemma {:induction false} UnionAppendsInOrder<T(!new)>(xs: seq<T>, ys: seq<T>)
    ensures var r := Union(xs, ys);
            && (forall i :: |xs| <= i < |r| ==> r[i] !in xs && r[i] in ys)
            && NoDuplicates(r[|xs|..])
            && (forall i, j :: |xs| <= i < j < |r| ==> FirstIndex(ys, r[i]) < FirstIndex(ys, r[j]))
    decreases |ys|
  {
    if ys != [] {
      if ys[0] in xs {
        UnionAppendsInOrder(xs, ys[1..]);
        SkipPresent(xs, ys, Union(xs, ys));
      } else {
        UnionAppendsInOrder(xs + [ys[0]], ys[1..]);
        TakeAbsent(xs, ys, Union(xs, ys));
      }
    }
  }

  lemma FirstIndexTail<T>(ys: seq<T>, z: T)
    requires ys != [] && z in ys[1..] && z != ys[0]
    ensures FirstIndex(ys, z) == 1 + FirstIndex(ys[1..], z)
  {
  }

  /** The recursive step of `Union` when the first given element is present. */
  lemma SkipPresent<T(!new)>(xs: seq<T>, ys: seq<T>, r: seq<T>)
    requires ys != [] && ys[0] in xs
    requires AppendsInOrder(xs, ys[1..], r)
    ensures AppendsInOrder(xs, ys, r)
  {
    forall i | |xs| <= i < |r|
      ensures r[i] in ys && FirstIndex(ys, r[i]) == 1 + FirstIndex(ys[1..], r[i])
    {
      FirstIndexTail(ys, r[i]);
    }
  }

  /** The recursive step of `Union` when the first given element is absent. */
  lemma TakeAbsent<T(!new)>(xs: seq<T>, ys: seq<T>, r: seq<T>)
    requires ys != [] && ys[0] !in xs
    requires AppendsInOrder(xs + [ys[0]], ys[1..], r)
    ensures AppendsInOrder(xs, ys, r)
  {
    var y := ys[0];
    var n := |xs|;
    assert r[..n + 1] == xs + [y];
    assert r[..n] == (xs + [y])[..n] == xs;
    assert r[n] == y;
    forall i | n < i < |r|
      ensures r[i] != y && r[i] !in xs && r[i] in ys
      ensures FirstIndex(ys, r[i]) == 1 + FirstIndex(ys[1..], r[i])
    {
      assert r[i] !in xs + [y];
      FirstIndexTail(ys, r[i]);
    }
    forall i, j | 0 <= i < j < |r| - n
      ensures r[n..][i] != r[n..][j]
    {
      if i > 0 {
        assert r[n..][i] == r[n + 1..][i - 1] && r[n..][j] == r[n + 1..][j - 1];
      }
    }
  }

  /** New elements keep the order they are given in, not a sorted one, and
      a repeated element is added once. */
  lemma UnionExample()
    ensures Union([], [2, 1, 2]) == [2, 1]
  {
    assert Union([2, 1], [2]) == [2, 1] by { assert [2][1..] == []; }
    assert Union([2], [1, 2]) == Union([2, 1], [2]) by { assert [1, 2][1..] == [2]; }
    assert Union([], [2, 1, 2]) == Union([2], [1, 2]) by { assert [2, 1, 2][1..] == [1, 2]; }
  }

  /** Adding elements that are all present already changes nothing. */
  lemma {:induction false} UnionOfPresent<T(!new)>(xs: seq<T>, ys: seq<T>)
    requires forall y :: y in ys ==> y in xs
    ensures Union(xs, ys) == xs
    decreases |ys|
  {
    if ys != [] {
      assert ys[0] in xs;
      UnionOfPresent(xs, ys[1..]);
    }
  }

  /** Repeating an `arrayUnion` with the same elements has no further effect. */
  lemma UnionIdempotent<T(!new)>(xs: seq<T>, ys: seq<T>)
    ensures Union(Union(xs, ys), ys) == Union(xs, ys)
  {
    UnionOfPresent(Union(xs, ys), ys);
  }

  /** A single element is appended exactly when it is absent. */
  lemma UnionOne<T(!new)>(xs: seq<T>, y: T)
    ensures y in xs ==> Union(xs, [y]) == xs
    ensures y !in xs ==> Union(xs, [y]) == xs + [y]
  {
    assert [y][1..] == [];
  }
}

=== FILE: community.dfy ===
/** The community feed (src/lib/firestore.ts, "POSTS" and the post actions):
    posting, liking, commenting and approving, and the `contributions`
    counter that commenting and approval feed. Each operation is one
    transaction: all of its writes or none. */
module Community {
  import opened Outcomes
  import opened Store
  import JsText
  import ArrayUnion

  /** Stores a new Pending post by the signed-in user. `postId` is the id the
      store generates for it; `harmful` is the moderation classifier's verdict
      on the content. */
  function CreatePost(st: State, actor: Option<Actor>, postId: string, content: string,
                      harmful: bool): (r: Result<State>)
    requires postId != "" && postId !in st.posts
    ensures r.Ok? <==> actor.Some? && actor.value.displayName != "" && !harmful
    ensures actor.Some? && actor.value.displayName != "" && harmful ==> r == Err(ContentRejected)
    ensures r.Ok? ==> var s := r.value;
              && s.posts.Keys == st.posts.Keys + {postId}
              && s.posts[postId].authorId == actor.value.uid
              && s.posts[postId].authorName == actor.value.displayName
              && s.posts[postId].content == content
              && s.posts[postId].status == Pending
              && s.posts[postId].likes == 0 && s.posts[postId].likers == {}
              && s.posts[postId].comments == []
              && s.posts - {postId} == st.posts
              && OnlyWrites(st, s, {Posts})
  {
    if actor.None? then Err(Unauthorized)
    else if actor.value.displayName == "" then Err(InvalidArgument)
    else if harmful then Err(ContentRejected)
    else
      var p := Post(actor.value.uid, actor.value.displayName, content, Pending, 0, {}, []);
      Ok(st.(posts := st.posts[postId := p]))
  }

  /** Adds or removes user `userId`'s like on a post and moves the post's
      `likes` counter with it. */
  function TogglePostLike(st: State, postId: string, userId: string): (r: Result<State>)
    ensures r.Ok? <==> Has(st.posts, postId) && userId != ""
    ensures r.Ok? ==> var p := st.posts[postId]; var s := r.value;
              && s.posts.Keys == st.posts.Keys
              && (userId in s.posts[postId].likers <==> userId !in p.likers)
              && s.posts[postId].likers - {userId} == p.likers - {userId}
              && s.posts[postId].likes == p.likes + (if userId in p.likers then -1 else 1)
              && s.posts[postId].(likes := p.likes, likers := p.likers) == p
              && s.posts - {postId} == st.posts - {postId}
              && OnlyWrites(st, s, {Posts})
  {
    if postId == "" || userId == "" then Err(InvalidArgument)
    else if postId !in st.posts then Err(NotFound)
    else
      var p := st.posts[postId];
      var q := if userId in p.likers
               then p.(likers := p.likers - {userId}, likes := p.likes - 1)
               else p.(likers := p.likers + {userId}, likes := p.likes + 1);
      Ok(st.(posts := st.posts[postId := q]))
  }

  /** The comment a signed-in user's text becomes, stamped with the time. */
  function NewComment(actor: Actor, text: string, now: int): Comment
  {
    Comment(actor.uid, actor.displayName, text, now)
  }

  /** Attaches a comment to a post and credits the commenter with one
      contribution. The comment joins the post's array through `arrayUnion`,
      so an identical comment already there is not repeated. */
  function AddCommentToPost(st: State, actor: Option<Actor>, postId: string, text: string,
                            now: int): (r: Result<State>)
    ensures r.Ok? <==> && actor.Some? && actor.value.displayName != "" && !JsText.IsBlank(text)
                       && Has(st.posts, postId) && Has(st.users, actor.value.uid)
    ensures actor.Some? && actor.value.displayName != "" && JsText.IsBlank(text) ==>
              r == Err(InvalidArgument)
    ensures r.Ok? ==> var c := NewComment(actor.value, text, now); var p := st.posts[postId];
              var s := r.value;
              && s.posts.Keys == st.posts.Keys
              && (c !in p.comments ==> s.posts[postId].comments == p.comments + [c])
              && (c in p.comments ==> s.posts[postId].comments == p.comments)
              && s.posts[postId].(comments := p.comments) == p
              && s.posts - {postId} == st.posts - {postId}
    ensures r.Ok? ==> var uid := actor.value.uid; var s := r.value;
              && s.users.Keys == st.users.Keys
              && s.users[uid].contributions == st.users[uid].contributions + 1
              && s.users[uid].(contributions := st.users[uid].contributions) == st.users[uid]
              && s.users - {uid} == st.users - {uid}
              && OnlyWrites(st, s, {Posts, Users})
  {
    if actor.None? then Err(Unauthorized)
    else if actor.value.displayName == "" then Err(InvalidArgument)
    else if JsText.IsBlank(text) then Err(InvalidArgument)
    else if postId == "" || actor.value.uid == "" then Err(InvalidArgument)
    else if postId !in st.posts || actor.value.uid !in st.users then Err(NotFound)
    else
      var uid := actor.value.uid;
      var p := st.posts[postId];
      var c := NewComment(actor.value, text, now);
      ArrayUnion.UnionOne(p.comments, c);
      var u := st.users[uid];
      Ok(st.(posts := st.posts[postId := p.(comments := ArrayUnion.Union(p.comments, [c]))],
             users := st.users[uid := u.(contributions := u.contributions + 1)]))
  }

  /** Marks a post Approved and credits its author, when the post names one,
      with one contribution. The post's current status is not consulted. */
  function ApprovePost(st: State, postId: string): (r: Result<State>)
    ensures r.Ok? <==> && Has(st.posts, postId)
                       && (st.posts[postId].authorId == "" || st.posts[postId].authorId in st.users)
    ensures r.Ok? ==> var p := st.posts[postId]; var s := r.value;
              && s.posts.Keys == st.posts.Keys
              && s.posts[postId] == p.(status := Approved)
              && s.posts - {postId} == st.posts - {postId}
    ensures r.Ok? ==> var a := st.posts[postId].authorId; var s := r.value;
              && s.users.Keys == st.users.Keys
              && (a != "" ==> s.users[a] == st.users[a].(contributions := st.users[a].contributions + 1))
              && s.users - {a} == st.users - {a}
              && OnlyWrites(st, s, {Posts, Users})
  {
    if postId == "" then Err(InvalidArgument)
    else if postId !in st.posts then Err(NotFound)
    else
      var p := st.posts[postId];
      var a := p.authorId;
      if a != "" && a !in st.users then Err(NotFound)
      else
        var users := if a != "" then st.users[a := st.users[a].(contributions := st.users[a].contributions + 1)]
                     else st.users;
        Ok(st.(posts := st.posts[postId := p.(status := Approved)], users := users))
  }

  // ---- Properties ----

  /** Liking twice is undone: a second toggle by the same user restores the store. */
  lemma ToggleTwiceRestores(st: State, postId: string, userId: string)
    ensures TogglePostLike(st, postId, userId).Ok? ==>
              TogglePostLike(TogglePostLike(st, postId, userId).value, postId, userId) == Ok(st)
  {
    if TogglePostLike(st, postId, userId).Ok? {
      var p := st.posts[postId];
      var s := TogglePostLike(st, postId, userId).value;
      var q := s.posts[postId];
      var t := TogglePostLike(s, postId, userId).value;
      if userId in p.likers {
        assert q.likers + {userId} == p.likers;
      } else {
        assert q.likers - {userId} == p.likers;
      }
      assert t.posts[postId] == p;
      assert t.posts == st.posts;
    }
  }

  /** A `likes` counter that matches the number of likers keeps matching. */
  lemma ToggleKeepsLikeCount(st: State, postId: string, userId: string)
    requires postId in st.posts && st.posts[postId].likes == |st.posts[postId].likers|
    ensures TogglePostLike(st, postId, userId).Ok? ==>
              var q := TogglePostLike(st, postId, userId).value.posts[postId];
              q.likes == |q.likers|
  {
  }

  /** Text made only of white space is never accepted as a comment. */
  lemma WhiteSpaceCommentRejected(st: State, actor: Option<Actor>, postId: string, text: string, now: int)
    requires forall i :: 0 <= i < |text| ==> JsText.IsWhiteSpace(text[i])
    ensures AddCommentToPost(st, actor, postId, text, now).Err?
  {
    JsText.BlankIffAllWhiteSpace(text);
  }
}

=== FILE: competition_registry.dfy ===
/** Competitions and team registrations (src/lib/firestore.ts,
    "COMPETITIONS", `registerTeamForCompetition` and the admin actions on
    competitions and registrations). */
module CompetitionRegistry {
  import opened Outcomes
  import opened Store

  const MsPerDay := 86400000

  /** Local midnight at the start of the day containing instant `now`. */
  function StartOfDay(now: int): (m: int)
    ensures m <= now < m + MsPerDay && m % MsPerDay == 0
  {
    now - now % MsPerDay
  }

  /** The status a competition dated `date` is stored with when it is created
      or edited at instant `now`: Upcoming from the start of today on,
      Completed before. In day numbers, Upcoming exactly when the
      competition's day is today or later. */
  function StatusFor(date: int, now: int): (s: CompetitionStatus)
    ensures s == Upcoming <==> date / MsPerDay >= now / MsPerDay
  {
    DayOrder(date, now);
    if date >= StartOfDay(now) then Upcoming else Completed
  }

  lemma DayOrder(date: int, now: int)
    ensures date >= StartOfDay(now) <==> date / MsPerDay >= now / MsPerDay
  {
    var q := now / MsPerDay;
    var d := date / MsPerDay;
    assert StartOfDay(now) == MsPerDay * q;
    assert MsPerDay * d <= date < MsPerDay * d + MsPerDay;
    if d >= q {
      assert MsPerDay * d >= MsPerDay * q;
    } else {
      assert d + 1 <= q;
      assert MsPerDay * (d + 1) <= MsPerDay * q;
    }
  }

  /** Stores a new competition under the id the store generates for it. */
  function CreateCompetition(st: State, compId: string, name: string, date: int,
                             description: string, now: int): (r: Result<State>)
    requires compId != "" && compId !in st.competitions
    ensures r.Ok?
    ensures r.Ok? ==> var s := r.value;
              && s.competitions.Keys == st.competitions.Keys + {compId}
              && s.competitions[compId].name == name && s.competitions[compId].date == date
              && s.competitions[compId].description == description
              && (s.competitions[compId].status == Upcoming <==> date / MsPerDay >= now / MsPerDay)
              && s.competitions[compId].teams == 0
              && s.competitions - {compId} == st.competitions
              && OnlyWrites(st, s, {Competitions})
  {
    Ok(st.(competitions :=
      st.competitions[compId := Competition(name, date, description, StatusFor(date, now), 0)]))
  }

  /** Overwrites a competition's name, date and description, and recomputes its status. */
  function UpdateCompetition(st: State, compId: string, name: string, date: int,
                             description: string, now: int): (r: Result<State>)
    ensures r.Ok? <==> Has(st.competitions, compId)
    ensures r.Ok? ==> r.value.competitions.Keys == st.competitions.Keys
    ensures r.Ok? ==> var s := r.value; var c := s.competitions[compId];
              && c.name == name && c.date == date && c.description == description
              && (c.status == Upcoming <==> date / MsPerDay >= now / MsPerDay)
              && c.teams == st.competitions[compId].teams
              && s.competitions - {compId} == st.competitions - {compId}
              && OnlyWrites(st, s, {Competitions})
  {
    if compId == "" then Err(InvalidArgument)
    else if compId !in st.competitions then Err(NotFound)
    else
      var c := st.competitions[compId];
      Ok(st.(competitions := st.competitions[compId := c.(name := name, date := date,
                                                          description := description,
                                                          status := StatusFor(date, now))]))
  }

  /** Files a Pending registration of a team for a competition. The
      competition document itself is not read. */
  function RegisterTeamForCompetition(st: State, actor: Option<Actor>, compId: string, teamId: string,
                                      teamName: string, coachName: string): (r: Result<State>)
    ensures r.Ok? <==> actor.Some? && compId != "" && teamId != ""
                       && (compId, teamId) !in st.registrations
    ensures actor.Some? && compId != "" && teamId != "" && (compId, teamId) in st.registrations ==>
              r == Err(AlreadyExists)
    ensures r.Ok? ==> var s := r.value; var key := (compId, teamId);
              && s.registrations.Keys == st.registrations.Keys + {key}
              && s.registrations[key].status == Pending
              && s.registrations[key].registeredBy == actor.value.uid
              && s.registrations[key].teamName == teamName
              && s.registrations[key].coachName == coachName
              && s.registrations - {key} == st.registrations
              && OnlyWrites(st, s, {Registrations})
  {
    if actor.None? then Err(Unauthorized)
    else if compId == "" || teamId == "" then Err(InvalidArgument)
    else if (compId, teamId) in st.registrations then Err(AlreadyExists)
    else
      var reg := Registration(teamName, coachName, Pending, actor.value.uid);
      Ok(st.(registrations := st.registrations[(compId, teamId) := reg]))
  }

  /** Approves a registration, then counts the team on the competition. The
      two updates are committed separately: when the competition document is
      missing, the approval stays and the error is still reported. */
  function ApproveRegistration(st: State, compId: string, teamId: string): (r: Partial<State>)
    ensures r.failure.None? <==> && compId != "" && teamId != "" && (compId, teamId) in st.registrations
                                 && compId in st.competitions
    ensures !(compId != "" && teamId != "" && (compId, teamId) in st.registrations) ==> r.reached == st
    ensures compId != "" && teamId != "" && (compId, teamId) in st.registrations ==>
              var s := r.reached; var key := (compId, teamId);
              && s.registrations.Keys == st.registrations.Keys
              && s.registrations[key] == st.registrations[key].(status := Approved)
              && s.registrations - {key} == st.registrations - {key}
              && OnlyWrites(st, s, {Registrations, Competitions})
    ensures r.failure.None? ==> var s := r.reached;
              && s.competitions.Keys == st.competitions.Keys
              && s.competitions[compId] == st.competitions[compId].(teams := st.competitions[compId].teams + 1)
              && s.competitions - {compId} == st.competitions - {compId}
    ensures r.failure.Some? ==> r.reached.competitions == st.competitions
  {
    if compId == "" || teamId == "" then Partial(st, Some(InvalidArgument))
    else if (compId, teamId) !in st.registrations then Partial(st, Some(NotFound))
    else
      var key := (compId, teamId);
      var approved := st.(registrations := st.registrations[key := st.registrations[key].(status := Approved)]);
      if compId !in st.competitions then Partial(approved, Some(NotFound))
      else
        var c := st.competitions[compId];
        Partial(approved.(competitions := st.competitions[compId := c.(teams := c.teams + 1)]), None)
  }

  /** Withdraws a registration; a registration that is not there is no error. */
  function DenyRegistration(st: State, compId: string, teamId: string): (r: Result<State>)
    ensures r.Ok? <==> compId != "" && teamId != ""
    ensures r.Ok? ==> var s := r.value;
              && (compId, teamId) !in s.registrations
              && s.registrations == st.registrations - {(compId, teamId)}
              && OnlyWrites(st, s, {Registrations})
  {
    if compId == "" || teamId == "" then Err(InvalidArgument)
    else Ok(st.(registrations := st.registrations - {(compId, teamId)}))
  }

  // ---- Properties ----

  /** A team cannot be registered twice for one competition. */
  lemma RegisterTwiceRejected(st: State, actor: Option<Actor>, compId: string, teamId: string,
                              teamName: string, coachName: string)
    ensures var r := RegisterTeamForCompetition(st, actor, compId, teamId, teamName, coachName);
            r.Ok? ==> RegisterTeamForCompetition(r.value, actor, compId, teamId, teamName, coachName)
                      == Err(AlreadyExists)
  {
  }

  /** Denying a registration just filed restores the store. */
  lemma RegisterThenDenyRestores(st: State, actor: Option<Actor>, compId: string, teamId: string,
                                 teamName: string, coachName: string)
    ensures var r := RegisterTeamForCompetition(st, actor, compId, teamId, teamName, coachName);
            r.Ok? ==> DenyRegistration(r.value, compId, teamId) == Ok(st)
  {
    var r := RegisterTeamForCompetition(st, actor, compId, teamId, teamName, coachName);
    if r.Ok? {
      assert r.value.registrations - {(compId, teamId)} == st.registrations;
    }
  }

  /** Approval does not look at the registration's status: approving an
      already approved registration counts the team on the competition again. */
  lemma ApproveTwiceCountsTwice(st: State, compId: string, teamId: string)
    requires compId != "" && teamId != "" && (compId, teamId) in st.registrations
    requires compId in st.competitions
    ensures var s1 := ApproveRegistration(st, compId, teamId).reached;
            var s2 := ApproveRegistration(s1, compId, teamId).reached;
            s2.competitions[compId].teams == st.competitions[compId].teams + 2
  {
  }
}

=== FILE: doc_order.dfy ===
/** The order the document store returns query results in when no `orderBy`
    is given: ascending by document id. Ids are compared character by
    character; a proper prefix sorts first. */
module DocOrder {

  /** Strict lexicographic order on document ids. */
  predicate Before(a: string, b: string)
  {
    if |a| == 0 then |b| > 0
    else if |b| == 0 then false
    else if a[0] != b[0] then a[0] < b[0]
    else Before(a[1..], b[1..])
  }

  lemma {:induction false} BeforeIrreflexive(a: string)
    ensures !Before(a, a)
  {
    if |a| > 0 {
      BeforeIrreflexive(a[1..]);
    }
  }

  lemma {:induction false} BeforeAsymmetric(a: string, b: string)
    requires Before(a, b)
    ensures !Before(b, a)
  {
    if |a| > 0 && |b| > 0 && a[0] == b[0] {
      BeforeAsymmetric(a[1..], b[1..]);
    }
  }

  lemma {:induction false} BeforeTransitive(a: string, b: string, c: string)
    requires Before(a, b) && Before(b, c)
    ensures Before(a, c)
  {
    if |a| > 0 && |b| > 0 && |c| > 0 && a[0] == b[0] && b[0] == c[0] {
      BeforeTransitive(a[1..], b[1..], c[1..]);
    }
  }

  lemma {:induction false} BeforeTotal(a: string, b: string)
    ensures a == b || Before(a, b) || Before(b, a)
  {
    if |a| > 0 && |b| > 0 && a[0] == b[0] {
      BeforeTotal(a[1..], b[1..]);
      if a[1..] == b[1..] {
        assert a == [a[0]] + a[1..] && b == [b[0]] + b[1..];
      }
    }
  }

  /** `x` is the id that sorts first in `ids`. */
  predicate IsLeast(x: string, ids: set<string>)
  {
    x in ids && forall y :: y in ids && y != x ==> Before(x, y)
  }

  lemma {:induction false} LeastExists(ids: set<string>)
    requires ids != {}
    ensures exists x :: IsLeast(x, ids)
    decreases |ids|
  {
    var y :| y in ids;
    if ids == {y} {
      assert IsLeast(y, ids);
    } else {
      var rest := ids - {y};
      LeastExists(rest);
      var m :| IsLeast(m, rest);
      BeforeTotal(m, y);
      if Before(m, y) {
        assert IsLeast(m, ids);
      } else {
        forall z | z in ids && z != y
          ensures Before(y, z)
        {
          if z != m {
            BeforeTransitive(y, m, z);
          }
        }
        assert IsLeast(y, ids);
      }
    }
  }

  lemma LeastUnique(ids: set<string>)
    ensures forall x, y :: IsLeast(x, ids) && IsLeast(y, ids) ==> x == y
  {
    forall x, y | IsLeast(x, ids) && IsLeast(y, ids)
      ensures x == y
    {
      if x != y {
        BeforeAsymmetric(x, y);
      }
    }
  }

  /** The first id of a non-empty collection in document-id order. */
  function Least(ids: set<string>): (m: string)
    requires ids != {}
    ensures IsLeast(m, ids)
  {
    LeastExists(ids);
    LeastUnique(ids);
    var m :| IsLeast(m, ids);
    m
  }

  /** The ids of a collection in the order a query snapshot lists them. */
  function Sorted(ids: set<string>): (r: seq<string>)
    ensures |r| == |ids|
    ensures forall x :: x in r <==> x in ids
    ensures forall i, j :: 0 <= i < j < |r| ==> Before(r[i], r[j])
    decreases |ids|
  {
    if ids == {} then []
    else
      var m := Least(ids);
      var tail := Sorted(ids - {m});
      assert forall j :: 0 <= j < |tail| ==> tail[j] in ids - {m};
      [m] + tail
  }
}

=== FILE: history.dfy ===
/** Every mutation of the core as one step type, run in sequence, and the
    properties that span many steps: the `contributions` counter only grows,
    and by exactly one per comment and per post approval; the link between a
    Coach role and a coach document survives every step except the two
    School Admin transitions. A failed step leaves the store as it was. */
module History {
  import opened Outcomes
  import opened Store
  import Roles
  import Community
  import CompetitionRegistry
  import TeamRoster
  import SchoolDirectory

  datatype Step =
    | CoachPromotion(userId: string)
    | CoachDemotion(userId: string)
    | SchoolAdminPromotion(userId: string, schoolId: string, schoolName: string)
    | SchoolAdminDemotion(userId: string)
    | UserDeletion(userId: string)
    | PostCreation(actor: Option<Actor>, postId: string, content: string, harmful: bool)
    | LikeToggle(postId: string, userId: string)
    | CommentAddition(actor: Option<Actor>, postId: string, text: string, now: int)
    | PostApproval(postId: string)
    | TeamRegistration(actor: Option<Actor>, compId: string, teamId: string, teamName: string, coachName: string)
    | RegistrationApproval(compId: string, teamId: string)
    | RegistrationDenial(compId: string, teamId: string)
    | MemberAddition(actor: Option<Actor>, teamId: string, studentIds: seq<string>)
    | SchoolEdit(actor: Option<Actor>, schoolId: string, name: string, location: string, about: Option<string>)
    | CompetitionCreation(compId: string, name: string, date: int, description: string, now: int)
    | CompetitionEdit(compId: string, name: string, date: int, description: string, now: int)

  /** The store after an all-or-nothing step: its result, or the old store on failure. */
  function Committed(st: State, r: Result<State>): State
  {
    if r.Ok? then r.value else st
  }

  /** The store after one step. A step that creates a document carries the
      id the store generated, which is always fresh; a step carrying an id
      already in use does not describe a real run and is left without effect. */
  function Apply(st: State, step: Step): State
  {
    match step
    case CoachPromotion(u) => Committed(st, Roles.PromoteUserToCoach(st, u))
    case CoachDemotion(u) => Committed(st, Roles.DemoteCoach(st, u))
    case SchoolAdminPromotion(u, s, n) => Committed(st, Roles.PromoteUserToSchoolAdmin(st, u, s, n))
    case SchoolAdminDemotion(u) => Committed(st, Roles.DemoteSchoolAdmin(st, u))
    case UserDeletion(u) => Committed(st, Roles.DeleteUser(st, u))
    case PostCreation(a, p, c, h) =>
      if p != "" && p !in st.posts then Committed(st, Community.CreatePost(st, a, p, c, h)) else st
    case LikeToggle(p, u) => Committed(st, Community.TogglePostLike(st, p, u))
    case CommentAddition(a, p, t, now) => Committed(st, Community.AddCommentToPost(st, a, p, t, now))
    case PostApproval(p) => Committed(st, Community.ApprovePost(st, p))
    case TeamRegistration(a, c, t, tn, cn) =>
      Committed(st, CompetitionRegistry.RegisterTeamForCompetition(st, a, c, t, tn, cn))
    case RegistrationApproval(c, t) => CompetitionRegistry.ApproveRegistration(st, c, t).reached
    case RegistrationDenial(c, t) => Committed(st, CompetitionRegistry.DenyRegistration(st, c, t))
    case MemberAddition(a, t, ids) => Committed(st, TeamRoster.AddMembersToTeam(st, a, t, ids))
    case SchoolEdit(a, s, n, l, ab) => Committed(st, SchoolDirectory.UpdateSchool(st, a, s, n, l, ab))
    case CompetitionCreation(c, n, d, desc, now) =>
      if c != "" && c !in st.competitions
      then Committed(st, CompetitionRegistry.CreateCompetition(st, c, n, d, desc, now))
      else st
    case CompetitionEdit(c, n, d, desc, now) =>
      Committed(st, CompetitionRegistry.UpdateCompetition(st, c, n, d, desc, now))
  }

  function Run(st: State, steps: seq<Step>): State
    decreases |steps|
  {
    if steps == [] then st else Run(Apply(st, steps[0]), steps[1..])
  }

  /** The contributions one step credits to user `u`: one for a comment `u`
      succeeded in adding, one for an approval of a post `u` wrote. */
  function Credit(st: State, step: Step, u: string): nat
  {
    match step
    case CommentAddition(a, p, t, now) =>
      if Community.AddCommentToPost(st, a, p, t, now).Ok? && a.value.uid == u then 1 else 0
    case PostApproval(p) =>
      if Community.ApprovePost(st, p).Ok? && u != "" && st.posts[p].authorId == u then 1 else 0
    case _ => 0
  }

  /** The contributions a run of steps credits to user `u`. */
  function Credits(st: State, steps: seq<Step>, u: string): nat
    decreases |steps|
  {
    if steps == [] then 0 else Credit(st, steps[0], u) + Credits(Apply(st, steps[0]), steps[1..], u)
  }

  /** No step creates a user document. */
  lemma StepCreatesNoUser(st: State, step: Step)
    ensures Apply(st, step).users.Keys <= st.users.Keys
  {
  }

  lemma FrameUser(a: map<string, User>, b: map<string, User>, changed: string, u: string)
    requires a - {changed} == b - {changed} && u != changed && u in a
    ensures u in b && b[u] == a[u]
  {
    assert u in a - {changed};
  }

  /** A role transition or a deletion changes at most the one user it names. */
  lemma AccountStepCredit(st: State, step: Step, u: string)
    requires step.CoachPromotion? || step.CoachDemotion? || step.SchoolAdminPromotion?
             || step.SchoolAdminDemotion? || step.UserDeletion?
    requires u in st.users && u in Apply(st, step).users
    ensures Apply(st, step).users[u] == st.users[u] || u == step.userId
    ensures Apply(st, step).users[u].contributions == st.users[u].contributions
  {
    var s := Apply(st, step);
    var v := step.userId;
    if u != v && s != st {
      match step {
        case CoachPromotion(_) => assert Roles.PromoteUserToCoach(st, v).Ok?;
        case CoachDemotion(_) => assert Roles.DemoteCoach(st, v).Ok?;
        case SchoolAdminPromotion(_, sc, n) => assert Roles.PromoteUserToSchoolAdmin(st, v, sc, n).Ok?;
        case SchoolAdminDemotion(_) => assert Roles.DemoteSchoolAdmin(st, v).Ok?;
        case UserDeletion(_) => assert Roles.DeleteUser(st, v).Ok?;
      }
      FrameUser(st.users, s.users, v, u);
    }
  }

  lemma AddCommentCredit(st: State, a: Option<Actor>, p: string, t: string, now: int, u: string)
    requires u in st.users
    ensures var step := CommentAddition(a, p, t, now);
            u in Apply(st, step).users
            && Apply(st, step).users[u].contributions == st.users[u].contributions + Credit(st, step, u)
  {
    var r := Community.AddCommentToPost(st, a, p, t, now);
    assert Apply(st, CommentAddition(a, p, t, now)) == Committed(st, r);
    if r.Ok? && a.value.uid != u {
      FrameUser(st.users, r.value.users, a.value.uid, u);
    }
  }

  lemma ApprovePostCredit(st: State, p: string, u: string)
    requires u in st.users
    ensures u in Apply(st, PostApproval(p)).users
            && Apply(st, PostApproval(p)).users[u].contributions
               == st.users[u].contributions + Credit(st, PostApproval(p), u)
  {
    var r := Community.ApprovePost(st, p);
    assert Apply(st, PostApproval(p)) == Committed(st, r);
    if r.Ok? && st.posts[p].authorId != u {
      FrameUser(st.users, r.value.users, st.posts[p].authorId, u);
    }
  }

  /** A step moves a surviving user's counter by exactly its credit. */
  lemma StepCredit(st: State, step: Step, u: string)
    requires u in st.users && u in Apply(st, step).users
    ensures Apply(st, step).users[u].contributions == st.users[u].contributions + Credit(st, step, u)
  {
    if step.CommentAddition? {
      AddCommentCredit(st, step.actor, step.postId, step.text, step.now, u);
    } else if step.PostApproval? {
      ApprovePostCredit(st, step.postId, u);
    } else if LeavesAccounts(step) {
      AccountsUntouched(st, step);
      assert Credit(st, step, u) == 0;
    } else {
      AccountStepCredit(st, step, u);
      assert Credit(st, step, u) == 0;
    }
  }

  /** Over any run, a user who is still there has gained exactly the credits
      of the run, and so never lost a contribution; no run brings a deleted
      user back. */
  lemma {:induction false} ContributionsCountCredits(st: State, steps: seq<Step>, u: string)
    requires u in Run(st, steps).users
    ensures u in st.users
    ensures Run(st, steps).users[u].contributions == st.users[u].contributions + Credits(st, steps, u)
    ensures Run(st, steps).users[u].contributions >= st.users[u].contributions
    decreases |steps|
  {
    if steps != [] {
      var next := Apply(st, steps[0]);
      ContributionsCountCredits(next, steps[1..], u);
      StepCreatesNoUser(st, steps[0]);
      StepCredit(st, steps[0], u);
    }
  }

  /** A post goes with its author: deleting a user right after they post
      leaves the same store as deleting them before they posted. */
  lemma DeleteAuthorAfterPost(st: State, actor: Option<Actor>, postId: string, content: string,
                              harmful: bool)
    requires postId != "" && postId !in st.posts
    requires actor.Some? && actor.value.uid != ""
    ensures var r := Community.CreatePost(st, actor, postId, content, harmful);
            r.Ok? ==> Roles.DeleteUser(r.value, actor.value.uid) == Roles.DeleteUser(st, actor.value.uid)
  {
    var uid := actor.value.uid;
    var r := Community.CreatePost(st, actor, postId, content, harmful);
    if r.Ok? {
      var after := Roles.DeleteUser(r.value, uid).value;
      var before := Roles.DeleteUser(st, uid).value;
      forall p | p in after.posts
        ensures p in before.posts && after.posts[p] == before.posts[p]
      {
        assert p != postId;
        assert p in r.value.posts - {postId};
      }
      forall p | p in before.posts
        ensures p in after.posts
      {
        assert p in r.value.posts - {postId};
      }
      assert after.posts == before.posts;
    }
  }

  // ---- The Coach role and the coach document ----

  /** Every coach document belongs to a user, and a user is a Coach exactly
      when a coach document with their id exists. */
  ghost predicate CoachLink(st: State)
  {
    && st.coaches.Keys <= st.users.Keys
    && forall u :: u in st.users ==> (st.users[u].role == Coach <==> u in st.coaches)
  }

  /** A step that changes no role and no coach document keeps the link. */
  lemma LinkKeptWithoutRoleChange(st: State, s: State)
    requires CoachLink(st) && s.coaches == st.coaches && s.users.Keys == st.users.Keys
    requires forall u :: u in st.users ==> s.users[u].role == st.users[u].role
    ensures CoachLink(s)
  {
  }

  lemma PromoteCoachKeepsLink(st: State, v: string)
    requires CoachLink(st)
    ensures CoachLink(Apply(st, CoachPromotion(v)))
  {
    var s := Apply(st, CoachPromotion(v));
    if Roles.PromoteUserToCoach(st, v).Ok? {
      forall u | u in s.users && u != v
        ensures s.users[u] == st.users[u] && (u in s.coaches <==> u in st.coaches)
      {
        FrameUser(st.users, s.users, v, u);
        assert u in s.coaches - {v} <==> u in st.coaches - {v};
      }
    }
  }

  lemma DemoteCoachKeepsLink(st: State, v: string)
    requires CoachLink(st)
    ensures CoachLink(Apply(st, CoachDemotion(v)))
  {
    var s := Apply(st, CoachDemotion(v));
    if Roles.DemoteCoach(st, v).Ok? {
      forall u | u in s.users && u != v
        ensures s.users[u] == st.users[u]
      {
        FrameUser(st.users, s.users, v, u);
      }
    }
  }

  /** The steps that write neither user nor coach documents. */
  predicate LeavesAccounts(step: Step)
  {
    !(step.CoachPromotion? || step.CoachDemotion? || step.SchoolAdminPromotion? || step.SchoolAdminDemotion?
      || step.UserDeletion? || step.CommentAddition? || step.PostApproval?)
  }

  lemma AccountsUntouched(st: State, step: Step)
    requires LeavesAccounts(step)
    ensures Apply(st, step).users == st.users && Apply(st, step).coaches == st.coaches
  {
    if step.PostCreation? || step.LikeToggle? || step.MemberAddition? || step.SchoolEdit? {
      OtherStepsLeaveAccounts(st, step);
    } else {
      RegistryStepsLeaveAccounts(st, step);
    }
  }

  lemma OtherStepsLeaveAccounts(st: State, step: Step)
    requires step.PostCreation? || step.LikeToggle? || step.MemberAddition? || step.SchoolEdit?
    ensures Apply(st, step).users == st.users && Apply(st, step).coaches == st.coaches
  {
  }

  lemma RegistryStepsLeaveAccounts(st: State, step: Step)
    requires step.TeamRegistration? || step.RegistrationApproval? || step.RegistrationDenial?
             || step.CompetitionCreation? || step.CompetitionEdit?
    ensures Apply(st, step).users == st.users && Apply(st, step).coaches == st.coaches
  {
  }

  lemma AddCommentKeepsLink(st: State, a: Option<Actor>, p: string, t: string, now: int)
    requires CoachLink(st)
    ensures CoachLink(Apply(st, CommentAddition(a, p, t, now)))
  {
    var r := Community.AddCommentToPost(st, a, p, t, now);
    assert Apply(st, CommentAddition(a, p, t, now)) == Committed(st, r);
    if r.Ok? {
      var s := r.value;
      forall u | u in st.users && u != a.value.uid
        ensures s.users[u] == st.users[u]
      {
        FrameUser(st.users, s.users, a.value.uid, u);
      }
      LinkKeptWithoutRoleChange(st, s);
    }
  }

  lemma ApprovePostKeepsLink(st: State, p: string)
    requires CoachLink(st)
    ensures CoachLink(Apply(st, PostApproval(p)))
  {
    var r := Community.ApprovePost(st, p);
    assert Apply(st, PostApproval(p)) == Committed(st, r);
    if r.Ok? {
      var s := r.value;
      forall u | u in st.users && u != st.posts[p].authorId
        ensures s.users[u] == st.users[u]
      {
        FrameUser(st.users, s.users, st.posts[p].authorId, u);
      }
      LinkKeptWithoutRoleChange(st, s);
    }
  }

  /** Every step except the two School Admin transitions keeps the link. */
  lemma CoachLinkKept(st: State, step: Step)
    requires CoachLink(st)
    requires !step.SchoolAdminPromotion? && !step.SchoolAdminDemotion?
    ensures CoachLink(Apply(st, step))
  {
    if step.CoachPromotion? {
      PromoteCoachKeepsLink(st, step.userId);
    } else if step.CoachDemotion? {
      DemoteCoachKeepsLink(st, step.userId);
    } else if step.CommentAddition? {
      AddCommentKeepsLink(st, step.actor, step.postId, step.text, step.now);
    } else if step.PostApproval? {
      ApprovePostKeepsLink(st, step.postId);
    } else if step.UserDeletion? {
    } else {
      AccountsUntouched(st, step);
    }
  }

  /** The School Admin transitions do not keep it: promoting a Coach to
      School Admin, or demoting a Coach through the School Admin demotion,
      leaves a coach document whose user is no longer a Coach. */
  lemma SchoolAdminStepsBreakCoachLink(st: State, userId: string, schoolId: string, name: string)
    requires CoachLink(st) && Has(st.users, userId) && st.users[userId].role == Coach
    requires Has(st.schools, schoolId)
    ensures !CoachLink(Apply(st, SchoolAdminPromotion(userId, schoolId, name)))
    ensures !CoachLink(Apply(st, SchoolAdminDemotion(userId)))
  {
    var s1 := Apply(st, SchoolAdminPromotion(userId, schoolId, name));
    assert userId in s1.users && s1.users[userId].role != Coach && userId in s1.coaches;
    var s2 := Apply(st, SchoolAdminDemotion(userId));
    assert userId in s2.users && s2.users[userId].role != Coach && userId in s2.coaches;
  }
}

=== FILE: js_text.dfy ===
/** The part of the JavaScript string library the core relies on:
    `String.prototype.trim`, which strips white space and line terminators
    (ECMAScript's WhiteSpace and LineTerminator productions) from both ends. */
module JsText {

  /** ECMAScript WhiteSpace (TAB, VT, FF, SP, NBSP, ZWNBSP and the other
      space separators of category Zs) and LineTerminator (LF, CR, LS, PS). */
  predicate IsWhiteSpace(c: char)
  {
    || c == '\U{0009}' || c == '\U{000B}' || c == '\U{000C}' || c == '\U{0020}'
    || c == '\U{00A0}' || c == '\U{FEFF}'
    || c == '\U{1680}' || ('\U{2000}' <= c <= '\U{200A}') || c == '\U{202F}'
    || c == '\U{205F}' || c == '\U{3000}'
    || c == '\U{000A}' || c == '\U{000D}' || c == '\U{2028}' || c == '\U{2029}'
  }

  /** `s` with its leading white space removed. */
  function TrimStart(s: string): (r: string)
    ensures |r| <= |s| && r == s[|s| - |r|..]
    ensures forall i :: 0 <= i < |s| - |r| ==> IsWhiteSpace(s[i])
    ensures r == [] || !IsWhiteSpace(r[0])
    decreases |s|
  {
    if |s| > 0 && IsWhiteSpace(s[0]) then TrimStart(s[1..]) else s
  }

  /** `s` with its trailing white space removed. */
  function TrimEnd(s: string): (r: string)
    ensures |r| <= |s| && r == s[..|r|]
    ensures forall i :: |r| <= i < |s| ==> IsWhiteSpace(s[i])
    ensures r == [] || !IsWhiteSpace(r[|r| - 1])
    decreases |s|
  {
    if |s| > 0 && IsWhiteSpace(s[|s| - 1]) then TrimEnd(s[..|s| - 1]) else s
  }

  function Trim(s: string): string
  {
    TrimEnd(TrimStart(s))
  }

  /** The text JavaScript treats as empty after `trim()`. */
  predicate IsBlank(s: string)
  {
    Trim(s) == []
  }

  /** Text is blank exactly when every character of it is white space. */
  lemma BlankIffAllWhiteSpace(s: string)
    ensures IsBlank(s) <==> forall i :: 0 <= i < |s| ==> IsWhiteSpace(s[i])
  {
    var t := TrimStart(s);
    var r := TrimEnd(t);
    assert r != [] ==> r[|r| - 1] == t[|r| - 1] == s[|s| - |t| + |r| - 1];
    assert t != [] ==> t[0] == s[|s| - |t|];
    assert forall i :: |s| - |t| <= i < |s| ==> s[i] == t[i - (|s| - |t|)];
  }
}

=== FILE: outcomes.dfy ===
/** Optional values, the error classes the data-access layer raises, and the two
    shapes an operation's outcome can take: an all-or-nothing batch or
    transaction (`Result`), and a sequence of separately committed writes that
    can stop half-way (`Partial`). */
module Outcomes {

  datatype Option<+T> = None | Some(value: T)

  /** Why an operation was refused. Every error is raised before the batch
      commits, so none of them comes with a changed store. */
  datatype Error =
    | InvalidArgument   // a required id or text is missing or empty
    | NotFound          // a document the operation reads or updates does not exist
    | Unauthorized      // nobody is signed in, or the signed-in user may not do this
    | AlreadyExists     // the document to be created is already there
    | ContentRejected   // the moderation classifier marked the text as harmful

  /** Outcome of one batch or transaction: all of its writes or none. */
  datatype Result<+T> = Ok(value: T) | Err(error: Error)

  /** Outcome of several writes committed one after another: the store as the
      last successful write left it, and the error that stopped the sequence. */
  datatype Partial<+T> = Partial(reached: T, failure: Option<Error>)
}

=== FILE: roles.dfy ===
/** Role transitions and account deletion (src/lib/firestore.ts, "USER
    ACTIONS" and the admin actions that follow). Each transition reads the
    documents it needs, then commits one write batch: a failed read or a
    batch `update` of a missing document aborts the whole batch, which the
    model renders as `Err` with no new store. */
module Roles {
  import opened Outcomes
  import opened Store
  import SchoolDirectory
  import DocOrder

  const DefaultExpertise := "VEX, Arduino, Python"
  const Unaffiliated := "Unaffiliated"
  const PlaceholderAvatar := "https://placehold.co/100x100.png"

  /** The coach document a promotion writes for user `u`: name, school and
      avatar copied from the user, default expertise and about text. */
  function NewCoachProfile(u: User): CoachProfile
  {
    CoachProfile(
      u.name,
      if u.school == "" then Unaffiliated else u.school,
      if u.avatarUrl == "" then PlaceholderAvatar else u.avatarUrl,
      DefaultExpertise,
      "An experienced coach from " + (if u.school == "" then "the community" else u.school) + ".")
  }

  /** The school whose `coach` display field a promotion of `u` rewrites: the
      one the user's school name resolves to, unless that name is empty,
      'Unaffiliated' or 'Not Set'. */
  function SchoolToCoach(st: State, u: User): (r: Option<string>)
    ensures r.Some? <==> && u.school != "" && u.school != Unaffiliated && u.school != NotSet
                         && exists id :: id in st.schools && st.schools[id].name == u.school
    ensures r.Some? ==> r.value in st.schools && st.schools[r.value].name == u.school
    ensures r.Some? ==> forall id :: id in st.schools && st.schools[id].name == u.school && id != r.value ==>
                          DocOrder.Before(r.value, id)
  {
    if u.school != "" && u.school != Unaffiliated && u.school != NotSet then
      SchoolDirectory.GetSchoolByName(st, u.school)
    else None
  }

  /** Makes a user a Coach and (re)writes their coach document in full. */
  function PromoteUserToCoach(st: State, userId: string): (r: Result<State>)
    ensures r.Ok? <==> Has(st.users, userId)
    ensures userId == "" ==> r == Err(InvalidArgument)
    ensures r.Ok? ==> var u := st.users[userId]; var s := r.value;
              && s.users.Keys == st.users.Keys
              && s.users[userId] == u.(role := Coach)
              && s.users - {userId} == st.users - {userId}
    ensures r.Ok? ==> var u := st.users[userId]; var s := r.value;
              && userId in s.coaches
              && s.coaches[userId].name == u.name
              && s.coaches[userId].school == (if u.school == "" then Unaffiliated else u.school)
              && s.coaches[userId].avatar == (if u.avatarUrl == "" then PlaceholderAvatar else u.avatarUrl)
              && s.coaches[userId].expertise == DefaultExpertise
              && s.coaches[userId].about
                 == "An experienced coach from " + (if u.school == "" then "the community" else u.school) + "."
              && s.coaches - {userId} == st.coaches - {userId}
    ensures r.Ok? ==> var u := st.users[userId]; var s := r.value;
              && s.schools.Keys == st.schools.Keys
              && (forall id :: id in st.schools && SchoolToCoach(st, u) != Some(id) ==>
                    s.schools[id] == st.schools[id])
              && (forall id :: id in st.schools && SchoolToCoach(st, u) == Some(id) ==>
                    s.schools[id] == st.schools[id].(coach := u.name))
    ensures r.Ok? ==> OnlyWrites(st, r.value, {Users, Coaches, Schools})
  {
    if userId == "" then Err(InvalidArgument)
    else if userId !in st.users then Err(NotFound)
    else
      var u := st.users[userId];
      var schools :=
        match SchoolToCoach(st, u)
        case Some(id) => st.schools[id := st.schools[id].(coach := u.name)]
        case None => st.schools;
      Ok(st.(users := st.users[userId := u.(role := Coach)],
             coaches := st.coaches[userId := NewCoachProfile(u)],
             schools := schools))
  }

  /** Makes a user a Student and deletes their coach document, if any. */
  function DemoteCoach(st: State, userId: string): (r: Result<State>)
    ensures r.Ok? <==> Has(st.users, userId)
    ensures userId == "" ==> r == Err(InvalidArgument)
    ensures r.Ok? ==> var s := r.value;
              && s.users.Keys == st.users.Keys
              && s.users[userId] == st.users[userId].(role := Student)
              && s.users - {userId} == st.users - {userId}
              && userId !in s.coaches
              && s.coaches == st.coaches - {userId}
              && OnlyWrites(st, s, {Users, Coaches})
  {
    if userId == "" then Err(InvalidArgument)
    else if userId !in st.users then Err(NotFound)
    else
      Ok(st.(users := st.users[userId := st.users[userId].(role := Student)],
             coaches := st.coaches - {userId}))
  }

  /** Binds a user to a school as its School Admin. Any earlier `adminId` of
      the school is overwritten, and any coach document of the user is kept. */
  function PromoteUserToSchoolAdmin(st: State, userId: string, schoolId: string,
                                    schoolName: string): (r: Result<State>)
    ensures r.Ok? <==> Has(st.users, userId) && Has(st.schools, schoolId)
    ensures userId == "" || schoolId == "" ==> r == Err(InvalidArgument)
    ensures r.Ok? ==> var s := r.value;
              && s.users.Keys == st.users.Keys
              && s.users[userId] == st.users[userId].(role := SchoolAdmin, schoolId := Some(schoolId),
                                                      school := schoolName)
              && s.users - {userId} == st.users - {userId}
    ensures r.Ok? ==> var s := r.value;
              && s.schools.Keys == st.schools.Keys
              && s.schools[schoolId] == st.schools[schoolId].(adminId := Some(userId))
              && s.schools - {schoolId} == st.schools - {schoolId}
    ensures r.Ok? ==> OnlyWrites(st, r.value, {Users, Schools})
  {
    if userId == "" || schoolId == "" then Err(InvalidArgument)
    else if userId !in st.users then Err(NotFound)
    else if schoolId !in st.schools then Err(NotFound)
    else
      var u := st.users[userId];
      Ok(st.(users := st.users[userId := u.(role := SchoolAdmin, schoolId := Some(schoolId),
                                            school := schoolName)],
             schools := st.schools[schoolId := st.schools[schoolId].(adminId := Some(userId))]))
  }

  /** The school a user document links to through `schoolId`; an empty id
      links to none. */
  function LinkedSchool(u: User): (r: Option<string>)
    ensures r.Some? <==> u.schoolId.Some? && u.schoolId.value != ""
    ensures r.Some? ==> r == u.schoolId
  {
    if u.schoolId.Some? && u.schoolId.value != "" then u.schoolId else None
  }

  /** Makes a user a Student and drops their `schoolId`. The linked school's
      `adminId` is removed only while it still names this user. */
  function DemoteSchoolAdmin(st: State, userId: string): (r: Result<State>)
    ensures r.Ok? <==> Has(st.users, userId)
    ensures userId == "" ==> r == Err(InvalidArgument)
    ensures r.Ok? ==> var s := r.value;
              && s.users.Keys == st.users.Keys
              && s.users[userId] == st.users[userId].(role := Student, schoolId := None)
              && s.users - {userId} == st.users - {userId}
    ensures r.Ok? ==> var s := r.value;
              && s.schools.Keys == st.schools.Keys
              && (forall id :: id in st.schools && st.schools[id].adminId != Some(userId) ==>
                    s.schools[id] == st.schools[id])
              && (forall id :: id in st.schools && st.schools[id].adminId == Some(userId) ==>
                    s.schools[id] == if LinkedSchool(st.users[userId]) == Some(id)
                                     then st.schools[id].(adminId := None)
                                     else st.schools[id])
    ensures r.Ok? ==> OnlyWrites(st, r.value, {Users, Schools})
  {
    if userId == "" then Err(InvalidArgument)
    else if userId !in st.users then Err(NotFound)
    else
      var u := st.users[userId];
      var schools :=
        match LinkedSchool(u)
        case Some(id) =>
          if id in st.schools && st.schools[id].adminId == Some(userId)
          then st.schools[id := st.schools[id].(adminId := None)]
          else st.schools
        case None => st.schools;
      Ok(st.(users := st.users[userId := u.(role := Student, schoolId := None)],
             schools := schools))
  }

  /** Deletes a user's own documents: the user, the coach document if there
      is one, and every post whose author is the user. The account at the
      authentication service, the user's likes and comments on other posts,
      team memberships and any school `adminId` naming the user are kept. */
  function DeleteUser(st: State, userId: string): (r: Result<State>)
    ensures r.Ok? <==> userId != ""
    ensures r.Ok? ==> var s := r.value;
              && s.users == st.users - {userId}
              && s.coaches == st.coaches - {userId}
              && (forall p :: p in s.posts <==> p in st.posts && st.posts[p].authorId != userId)
              && (forall p :: p in s.posts ==> s.posts[p] == st.posts[p])
              && OnlyWrites(st, s, {Users, Coaches, Posts})
  {
    if userId == "" then Err(InvalidArgument)
    else
      Ok(st.(users := st.users - {userId},
             coaches := st.coaches - {userId},
             posts := map p | p in st.posts && st.posts[p].authorId != userId :: st.posts[p]))
  }

  // ---- Properties relating several transitions ----

  /** The role/coach-profile link right after each coach transition. */
  lemma CoachTransitionsKeepProfileLink(st: State, userId: string)
    ensures PromoteUserToCoach(st, userId).Ok? ==>
              var s := PromoteUserToCoach(st, userId).value;
              s.users[userId].role == Coach && userId in s.coaches
    ensures DemoteCoach(st, userId).Ok? ==>
              var s := DemoteCoach(st, userId).value;
              s.users[userId].role != Coach && userId !in s.coaches
  {
  }

  /** Demoting a coach twice leaves the store as demoting once does. */
  lemma DemoteCoachIdempotent(st: State, userId: string)
    ensures DemoteCoach(st, userId).Ok? ==>
              DemoteCoach(DemoteCoach(st, userId).value, userId) == DemoteCoach(st, userId)
  {
    if DemoteCoach(st, userId).Ok? {
      var s := DemoteCoach(st, userId).value;
      var u := st.users[userId].(role := Student);
      assert s.users[userId := u] == s.users;
      assert s.coaches - {userId} == s.coaches;
    }
  }

  /** Demoting a Student who has no coach document succeeds and changes nothing. */
  lemma DemoteCoachOfStudentIsNoOp(st: State, userId: string)
    requires Has(st.users, userId) && st.users[userId].role == Student && userId !in st.coaches
    ensures DemoteCoach(st, userId) == Ok(st)
  {
    assert st.users[userId := st.users[userId]] == st.users;
    assert st.coaches - {userId} == st.coaches;
  }

  /** Promoting a coach to School Admin keeps the coach document, so the
      user's role is no longer Coach while a coach document remains. */
  lemma SchoolAdminPromotionKeepsCoachProfile(st: State, userId: string, schoolId: string, name: string)
    requires Has(st.users, userId) && Has(st.schools, schoolId) && userId in st.coaches
    ensures PromoteUserToSchoolAdmin(st, userId, schoolId, name).Ok?
    ensures var s := PromoteUserToSchoolAdmin(st, userId, schoolId, name).value;
            s.users[userId].role == SchoolAdmin && s.coaches[userId] == st.coaches[userId]
  {
  }

  /** Two School Admin promotions to one school: the school follows the
      second user, the first user's `schoolId` still names the school, and
      demoting the first user afterwards leaves the second binding alone. */
  lemma SecondPromotionDisplacesFirst(st: State, u1: string, u2: string, schoolId: string, name: string)
    requires Has(st.users, u1) && Has(st.users, u2) && u1 != u2 && Has(st.schools, schoolId)
    ensures PromoteUserToSchoolAdmin(st, u1, schoolId, name).Ok?
    ensures var s1 := PromoteUserToSchoolAdmin(st, u1, schoolId, name).value;
            && PromoteUserToSchoolAdmin(s1, u2, schoolId, name).Ok?
            && var s2 := PromoteUserToSchoolAdmin(s1, u2, schoolId, name).value;
            && s2.schools[schoolId].adminId == Some(u2)
            && s2.users[u1].role == SchoolAdmin && s2.users[u1].schoolId == Some(schoolId)
            && SchoolDirectory.CanEditSchool(s2, u1, schoolId)
            && DemoteSchoolAdmin(s2, u1).Ok?
            && DemoteSchoolAdmin(s2, u1).value.schools[schoolId].adminId == Some(u2)
  {
    var s1 := PromoteUserToSchoolAdmin(st, u1, schoolId, name).value;
    assert s1.users[u2] == st.users[u2];
    var s2 := PromoteUserToSchoolAdmin(s1, u2, schoolId, name).value;
    assert s2.users[u1] == s1.users[u1];
  }

  /** A user promoted at two schools in turn and then demoted leaves the first
      school's `adminId` naming them: demotion follows only the user's
      current `schoolId`. */
  lemma StaleBindingSurvivesDemotion(st: State, u: string, first: string, second: string, name: string)
    requires Has(st.users, u) && Has(st.schools, first) && Has(st.schools, second) && first != second
    ensures var s1 := PromoteUserToSchoolAdmin(st, u, first, name).value;
            && PromoteUserToSchoolAdmin(s1, u, second, name).Ok?
            && var s2 := PromoteUserToSchoolAdmin(s1, u, second, name).value;
            && DemoteSchoolAdmin(s2, u).Ok?
            && var s3 := DemoteSchoolAdmin(s2, u).value;
            && s3.schools[first].adminId == Some(u)
            && s3.schools[second].adminId == None
            && s3.users[u].role == Student
  {
    var s1 := PromoteUserToSchoolAdmin(st, u, first, name).value;
    var s2 := PromoteUserToSchoolAdmin(s1, u, second, name).value;
    assert s2.schools[first] == s1.schools[first];
    assert LinkedSchool(s2.users[u]) == Some(second);
  }

  /** Deleting a School Admin leaves the school's `adminId` naming the deleted user. */
  lemma DeleteUserKeepsAdminBinding(st: State, userId: string, schoolId: string)
    requires userId != "" && schoolId in st.schools && st.schools[schoolId].adminId == Some(userId)
    ensures DeleteUser(st, userId).Ok?
    ensures var s := DeleteUser(st, userId).value;
            userId !in s.users && s.schools[schoolId].adminId == Some(userId)
  {
  }

  /** The coach transitions in sequence: promote then demote leaves a Student
      with no coach document and every other user as before. */
  lemma PromoteThenDemoteCoach(st: State, userId: string)
    requires Has(st.users, userId)
    ensures var s1 := PromoteUserToCoach(st, userId).value;
            && s1.coaches[userId].expertise == DefaultExpertise
            && DemoteCoach(s1, userId).Ok?
            && var s2 := DemoteCoach(s1, userId).value;
            && s2.users[userId] == st.users[userId].(role := Student)
            && userId !in s2.coaches
            && s2.users - {userId} == st.users - {userId}
  {
  }
}

=== FILE: school_directory.dfy ===
/** School lookups and edits: the name-keyed school lookup, the directory's
    grouping of coaches under the school they name, and who may edit a school
    (src/lib/firestore.ts, "SCHOOLS" and `updateSchool`). */
module SchoolDirectory {
  import opened Outcomes
  import opened Store
  import DocOrder

  /** Ids of the schools whose `name` field equals `name`. */
  function Named(st: State, name: string): (ids: set<string>)
    ensures forall id :: id in ids <==> id in st.schools && st.schools[id].name == name
  {
    set id | id in st.schools && st.schools[id].name == name
  }

  /** The school a user's free-text school name refers to: the first school,
      in document-id order, carrying exactly that name. The empty name and the
      'Not Set' placeholder refer to no school. */
  function GetSchoolByName(st: State, name: string): (r: Option<string>)
    ensures name == "" || name == NotSet ==> r == None
    ensures r.Some? ==> r.value in st.schools && st.schools[r.value].name == name
    ensures r.Some? ==>
              forall id :: id in st.schools && st.schools[id].name == name && id != r.value ==>
                DocOrder.Before(r.value, id)
    ensures r.None? && name != "" && name != NotSet ==>
              forall id :: id in st.schools ==> st.schools[id].name != name
  {
    if name == "" || name == NotSet then None
    else
      var ids := Named(st, name);
      if ids == {} then None else Some(DocOrder.Least(ids))
  }

  // ---- Coaches grouped by school name ----

  datatype CoachEntry = CoachEntry(id: string, name: string)

  /** The coaches among `ids` (a run of coach ids in snapshot order) whose
      school field is `name`, in the same order. */
  function CoachesAmong(st: State, ids: seq<string>, name: string): (r: seq<CoachEntry>)
    requires forall i :: 0 <= i < |ids| ==> ids[i] in st.coaches
    ensures forall e :: e in r ==>
              e.id in ids && e.id in st.coaches && st.coaches[e.id].school == name && e.name == st.coaches[e.id].name
    ensures forall i :: 0 <= i < |ids| && st.coaches[ids[i]].school == name ==>
              CoachEntry(ids[i], st.coaches[ids[i]].name) in r
    ensures (forall i, j :: 0 <= i < j < |ids| ==> DocOrder.Before(ids[i], ids[j])) ==>
              forall i, j :: 0 <= i < j < |r| ==> DocOrder.Before(r[i].id, r[j].id)
    decreases |ids|
  {
    if ids == [] then []
    else
      var rest := CoachesAmong(st, ids[1..], name);
      assert forall e :: e in rest ==> e.id in ids[1..];
      if st.coaches[ids[0]].school == name then [CoachEntry(ids[0], st.coaches[ids[0]].name)] + rest
      else rest
  }

  /** The coaches the directory lists under school name `name`: every coach
      document whose school field is `name`, in document-id order. Coaches
      with no school are never grouped. */
  function CoachesOf(st: State, name: string): (r: seq<CoachEntry>)
    ensures forall e :: e in r ==>
              e.id in st.coaches && name != "" && st.coaches[e.id].school == name && e.name == st.coaches[e.id].name
    ensures name != "" ==> forall id :: id in st.coaches && st.coaches[id].school == name ==>
              CoachEntry(id, st.coaches[id].name) in r
    ensures forall i, j :: 0 <= i < j < |r| ==> DocOrder.Before(r[i].id, r[j].id)
  {
    if name == "" then [] else CoachesAmong(st, DocOrder.Sorted(st.coaches.Keys), name)
  }

  lemma {:induction false} NoneAmong(st: State, ids: seq<string>, name: string)
    requires forall i :: 0 <= i < |ids| ==> ids[i] in st.coaches && st.coaches[ids[i]].school != name
    ensures CoachesAmong(st, ids, name) == []
    decreases |ids|
  {
    if ids != [] {
      NoneAmong(st, ids[1..], name);
    }
  }

  lemma NoCoachesNoEntries(st: State, name: string)
    requires name == "" || forall c :: c in st.coaches ==> st.coaches[c].school != name
    ensures CoachesOf(st, name) == []
  {
    if name != "" {
      NoneAmong(st, DocOrder.Sorted(st.coaches.Keys), name);
    }
  }

  /** The directory listing: for each school, the coaches grouped under its name. */
  function GetSchools(st: State): (r: map<string, seq<CoachEntry>>)
    ensures r.Keys == st.schools.Keys
    ensures forall id :: id in r ==> r[id] == CoachesOf(st, st.schools[id].name)
  {
    map id | id in st.schools :: CoachesOf(st, st.schools[id].name)
  }

  /** Property names every plain JavaScript object inherits from `Object.prototype`. */
  const ObjectPrototypeKeys: set<string> := {
    "constructor", "__proto__", "__defineGetter__", "__defineSetter__",
    "__lookupGetter__", "__lookupSetter__", "hasOwnProperty", "isPrototypeOf",
    "propertyIsEnumerable", "toLocaleString", "toString", "valueOf"}

  /** What a lookup in an object literal keyed by school name yields: an array
      the grouping built, or a member inherited from `Object.prototype`. */
  datatype CoachesField = Listed(entries: seq<CoachEntry>) | Inherited(key: string)

  /** The listing as the code computes it, grouping into an object literal. A
      coach whose school is an inherited key finds a truthy non-array there,
      `push` throws, and the catch returns an empty listing; a school whose
      name is an inherited key is given the inherited member. */
  function GetSchoolsAsWritten(st: State): (r: map<string, CoachesField>)
    ensures (exists c :: c in st.coaches && st.coaches[c].school in ObjectPrototypeKeys) ==> r == map[]
    ensures (forall c :: c in st.coaches ==> st.coaches[c].school !in ObjectPrototypeKeys) ==>
              r.Keys == st.schools.Keys
  {
    if exists c :: c in st.coaches && st.coaches[c].school in ObjectPrototypeKeys then map[]
    else map id | id in st.schools :: LookupAsWritten(st, st.schools[id].name)
  }

  /** `coachesBySchool[name] || []` on the object literal the grouping built:
      its own keys are the non-empty school names of the coaches. */
  function LookupAsWritten(st: State, name: string): CoachesField
  {
    if name != "" && exists c :: c in st.coaches && st.coaches[c].school == name then
      Listed(CoachesOf(st, name))
    else if name in ObjectPrototypeKeys then Inherited(name)
    else Listed([])
  }

  /** When no coach's school and no school's name is an inherited key, the
      code's listing is the directory listing. */
  lemma AsWrittenAgreesOffPrototypeKeys(st: State)
    requires forall c :: c in st.coaches ==> st.coaches[c].school !in ObjectPrototypeKeys
    requires forall id :: id in st.schools ==> st.schools[id].name !in ObjectPrototypeKeys
    ensures GetSchoolsAsWritten(st).Keys == GetSchools(st).Keys
    ensures forall id :: id in st.schools ==> GetSchoolsAsWritten(st)[id] == Listed(GetSchools(st)[id])
  {
    var w := GetSchoolsAsWritten(st);
    var g := GetSchools(st);
    forall id | id in st.schools
      ensures w[id] == Listed(g[id])
    {
      var name := st.schools[id].name;
      if !(name != "" && exists c :: c in st.coaches && st.coaches[c].school == name) {
        NoCoachesNoEntries(st, name);
      }
      assert LookupAsWritten(st, name) == Listed(CoachesOf(st, name));
    }
  }

  /** One coach whose school field reads "toString" empties the whole
      listing, though the directory lists every school. */
  lemma InheritedKeyEmptiesListing(st: State, coachId: string)
    requires coachId in st.coaches && st.coaches[coachId].school == "toString"
    requires st.schools != map[]
    ensures GetSchoolsAsWritten(st) == map[]
    ensures GetSchools(st).Keys == st.schools.Keys != {}
  {
    assert st.coaches[coachId].school in ObjectPrototypeKeys;
    var id :| id in st.schools;
    assert id in st.schools.Keys;
  }

  /** A school whose name is an inherited key is listed with the inherited
      member in place of its (empty) coach list, whenever the listing is not
      emptied altogether. */
  lemma InheritedNameListing(st: State, schoolId: string)
    requires schoolId in st.schools && st.schools[schoolId].name in ObjectPrototypeKeys
    requires forall c :: c in st.coaches ==> st.coaches[c].school !in ObjectPrototypeKeys
    ensures GetSchoolsAsWritten(st)[schoolId] == Inherited(st.schools[schoolId].name)
    ensures GetSchools(st)[schoolId] == []
  {
    var name := st.schools[schoolId].name;
    assert GetSchoolsAsWritten(st)[schoolId] == LookupAsWritten(st, name);
    assert !exists c :: c in st.coaches && st.coaches[c].school == name;
    NoCoachesNoEntries(st, name);
  }

  /** For instance, a school named "constructor" is listed with an inherited
      function in place of its coach list. */
  lemma InheritedKeySchoolListing(st: State, schoolId: string)
    requires schoolId in st.schools && st.schools[schoolId].name == "constructor"
    requires forall c :: c in st.coaches ==> st.coaches[c].school == ""
    ensures GetSchoolsAsWritten(st)[schoolId] == Inherited("constructor")
    ensures GetSchools(st)[schoolId] == []
  {
    assert "" !in ObjectPrototypeKeys && "constructor" in ObjectPrototypeKeys;
    InheritedNameListing(st, schoolId);
  }

  // ---- Editing a school ----

  /** Who may edit school `schoolId`: an Admin, or a School Admin whose own
      user document names that school id. The school's `adminId` is not
      consulted; a user with no user document may edit nothing. */
  predicate CanEditSchool(st: State, uid: string, schoolId: string)
  {
    && Has(st.users, uid)
    && (|| st.users[uid].role == Admin
        || (st.users[uid].role == SchoolAdmin && st.users[uid].schoolId == Some(schoolId)))
  }

  /** Overwrites a school's name, location and (when given) about text. */
  function UpdateSchool(st: State, actor: Option<Actor>, schoolId: string,
                        name: string, location: string, about: Option<string>): (r: Result<State>)
    ensures r.Ok? <==> actor.Some? && schoolId != "" && CanEditSchool(st, actor.value.uid, schoolId)
                       && schoolId in st.schools
    ensures actor.Some? && schoolId != "" && !CanEditSchool(st, actor.value.uid, schoolId) ==>
              r == Err(Unauthorized)
    ensures r.Ok? ==> r.value.schools.Keys == st.schools.Keys
    ensures r.Ok? ==> var s := r.value.schools[schoolId]; var prev := st.schools[schoolId];
              && s.name == name && s.location == location
              && s.about == (if about.Some? then about.value else prev.about)
              && s.coach == prev.coach && s.adminId == prev.adminId && s.teams == prev.teams
    ensures r.Ok? ==> r.value.schools - {schoolId} == st.schools - {schoolId}
                      && OnlyWrites(st, r.value, {Schools})
  {
    if actor.None? then Err(Unauthorized)
    else if schoolId == "" then Err(InvalidArgument)
    else if !CanEditSchool(st, actor.value.uid, schoolId) then Err(Unauthorized)
    else if schoolId !in st.schools then Err(NotFound)
    else
      var prev := st.schools[schoolId];
      var updated := prev.(name := name, location := location,
                           about := if about.Some? then about.value else prev.about);
      Ok(st.(schools := st.schools[schoolId := updated]))
  }
}

=== FILE: store.dfy ===
/** The documents the academy's data-access layer reads and writes, and the
    whole store as one immutable value. Each collection is a finite map from
    document id to document; a field the application leaves unset is the
    empty string, `None`, or 0 for a counter (the store's `increment` treats
    a missing number as 0). */
module Store {
  import opened Outcomes

  /** The four values the `role` field of a user document takes. */
  datatype Role = Student | Coach | SchoolAdmin | Admin

  /** A `users` document. `school` is a free-text school name used as a join
      key; `schoolId` is set only by a School Admin promotion. */
  datatype User = User(
    name: string,
    email: string,
    role: Role,
    school: string,
    schoolId: Option<string>,
    avatarUrl: string,
    contributions: int)

  /** A `coaches` document, keyed by the same id as the coach's user document. */
  datatype CoachProfile = CoachProfile(
    name: string,
    school: string,
    avatar: string,
    expertise: string,
    about: string)

  /** A `schools` document. `coach` is a display name; `adminId` points back at
      the user bound as the school's School Admin. */
  datatype School = School(
    name: string,
    location: string,
    about: string,
    coach: string,
    adminId: Option<string>,
    teams: int)

  /** Moderation state of a post, and review state of a competition registration. */
  datatype Status = Pending | Approved

  datatype Comment = Comment(userId: string, userName: string, text: string, createdAt: int)

  /** A `posts` document. `likers` stands for the ids of the post's `likes`
      sub-collection; `likes` is the separately maintained counter. */
  datatype Post = Post(
    authorId: string,
    authorName: string,
    content: string,
    status: Status,
    likes: int,
    likers: set<string>,
    comments: seq<Comment>)

  datatype Team = Team(name: string, schoolId: string, coachId: string, members: seq<string>)

  /** A document of a competition's `registeredTeams` sub-collection. */
  datatype Registration = Registration(
    teamName: string,
    coachName: string,
    status: Status,
    registeredBy: string)

  datatype CompetitionStatus = Upcoming | Completed

  /** A `competitions` document; `date` is a local-time instant in milliseconds. */
  datatype Competition = Competition(
    name: string,
    date: int,
    description: string,
    status: CompetitionStatus,
    teams: int)

  /** A registration is keyed by (competition id, team id). */
  type RegistrationKey = (string, string)

  datatype State = State(
    users: map<string, User>,
    coaches: map<string, CoachProfile>,
    schools: map<string, School>,
    posts: map<string, Post>,
    teams: map<string, Team>,
    registrations: map<RegistrationKey, Registration>,
    competitions: map<string, Competition>)

  /** The signed-in user as the authentication service reports it;
      `displayName` is empty when the user has not set one. */
  datatype Actor = Actor(uid: string, displayName: string)

  /** `id` names a document of collection `m`. A reference with an empty id
      names no document: the store client rejects it before any read. */
  predicate Has<V>(m: map<string, V>, id: string)
  {
    id != "" && id in m
  }

  /** The school name a user document holds before one is chosen. */
  const NotSet := "Not Set"

  /** The collections a step may write; every other one is left as it was. */
  datatype Collection = Users | Coaches | Schools | Posts | Teams | Registrations | Competitions

  predicate OnlyWrites(a: State, b: State, written: set<Collection>)
  {
    && (Users !in written ==> a.users == b.users)
    && (Coaches !in written ==> a.coaches == b.coaches)
    && (Schools !in written ==> a.schools == b.schools)
    && (Posts !in written ==> a.posts == b.posts)
    && (Teams !in written ==> a.teams == b.teams)
    && (Registrations !in written ==> a.registrations == b.registrations)
    && (Competitions !in written ==> a.competitions == b.competitions)
  }
}

=== FILE: team_roster.dfy ===
/** Team membership (src/lib/firestore.ts, `addMembersToTeam`). */
module TeamRoster {
  import opened Outcomes
  import opened Store
  import ArrayUnion

  /** Adds students to a team's member array with `arrayUnion`: members
      already on the team are not repeated, and the existing members keep
      their places. */
  function AddMembersToTeam(st: State, actor: Option<Actor>, teamId: string,
                            studentIds: seq<string>): (r: Result<State>)
    ensures r.Ok? <==> actor.Some? && studentIds != [] && Has(st.teams, teamId)
    ensures actor.Some? && (teamId == "" || studentIds == []) ==> r == Err(InvalidArgument)
    ensures r.Ok? ==> r.value.teams.Keys == st.teams.Keys
    ensures r.Ok? ==> var prev := st.teams[teamId]; var t := r.value.teams[teamId];
              && (forall m :: m in t.members <==> m in prev.members || m in studentIds)
              && |prev.members| <= |t.members| && t.members[..|prev.members|] == prev.members
              && (forall i :: |prev.members| <= i < |t.members| ==>
                    t.members[i] !in prev.members && t.members[i] in studentIds)
              && ArrayUnion.NoDuplicates(t.members[|prev.members|..])
              && (forall i, j :: |prev.members| <= i < j < |t.members| ==>
                    ArrayUnion.FirstIndex(studentIds, t.members[i]) < ArrayUnion.FirstIndex(studentIds, t.members[j]))
              && (ArrayUnion.NoDuplicates(prev.members) ==> ArrayUnion.NoDuplicates(t.members))
              && t.(members := prev.members) == prev
              && r.value.teams - {teamId} == st.teams - {teamId}
              && OnlyWrites(st, r.value, {Teams})
  {
    if actor.None? then Err(Unauthorized)
    else if teamId == "" || studentIds == [] then Err(InvalidArgument)
    else if teamId !in st.teams then Err(NotFound)
    else
      var t := st.teams[teamId];
      ArrayUnion.UnionAppendsInOrder(t.members, studentIds);
      Ok(st.(teams := st.teams[teamId := t.(members := ArrayUnion.Union(t.members, studentIds))]))
  }

  /** Adding the same students a second time changes nothing. */
  lemma AddMembersIdempotent(st: State, actor: Option<Actor>, teamId: string, studentIds: seq<string>)
    ensures var r := AddMembersToTeam(st, actor, teamId, studentIds);
            r.Ok? ==> AddMembersToTeam(r.value, actor, teamId, studentIds) == r
  {
    var r := AddMembersToTeam(st, actor, teamId, studentIds);
    if r.Ok? {
      var t := r.value.teams[teamId];
      ArrayUnion.UnionIdempotent(st.teams[teamId].members, studentIds);
      assert r.value.teams[teamId := t] == r.value.teams;
    }
  }
}
